=== FILE: README.md ===
# Stock ledger of the inventory form

This project models the ledger behind a small stock-control web form
(`streamlit_app.py`). The form keeps two tables: a stock table of items
(type, description, size, quantity, entry date) and a withdrawal log
(employee, item, size, quantity, date). Users register items, browse a report
of the stock grouped by category, edit or delete rows from that report, and
withdraw units against stock. The model keeps both tables as Dafny sequences
of records and addresses rows by position. Every operation is a pure
function from the tables before an interaction to the tables written back
after it.

Modules:

- `Text` (`text.dfy`): substring containment, as a scan and as a reference
  predicate, proved equivalent.
- `StockLedger` (`ledger.dfy`): the records, register, edit, delete,
  first-match lookup, the available-quantity preview and withdrawal.
- `Report` (`report.dfy`): the category report: sections per category with
  totals, the uncategorised rows, and how the totals relate to the stock.
- `Session` (`session.dfy`): the requests the three tabs can issue, applied
  in sequence, with the invariants that hold across any run.
- `Scenarios` (`scenarios.dfy`): worked withdrawal scenarios on small tables.

Upper-casing is a parameter `up: string -> string` of the report functions,
because the categories contain the non-ASCII letter "Ç". Dates are an
abstract type `Date` that is only stored and copied.

Notes on the code's behaviour:

- The categories are the upper-case Portuguese words
  `CALÇA, CAMISA, BOTINA, CAPACETE, LUVA` (`Report.StockCategories`). They are
  matched against the upper-cased description. `Report.StockReport` is the
  report over exactly this list.
- The report shows no total for the uncategorised rows. Their quantity appears
  only in `Report.TotalsCoverStock` and `Report.StockReportCoversStock`, as a
  reference sum.
- The code never checks a withdrawal's quantity. It relies on the
  quantity widget's minimum of 1, so the model takes `quantity >= 1` as a
  precondition and has no error for non-positive quantities.
- A missing field is reported as `MissingFields`. This check comes before
  the lookup, exactly as in the code.

## Model

| member | source | states |
|---|---|---|
| Text.ContainsIffOccurs | streamlit_app.py:69 | the containment scan answers yes exactly when the category occurs at some position of the upper-cased description |
| StockLedger.Register | streamlit_app.py:48-54 | registering appends exactly one row with the submitted type, description, size, quantity (at least 1) and date; earlier rows stay unchanged and in order; no quantity becomes negative |
| StockLedger.Edit | streamlit_app.py:92-104 | editing row i sets only its quantity (at least 1) and date; its type, description and size and every other row are unchanged |
| StockLedger.Delete | streamlit_app.py:109-111 | deleting row i removes exactly that row; rows before it keep their position, rows after it shift down by one, and the multiset of rows loses exactly that row |
| StockLedger.FindFirst | streamlit_app.py:196-198 | the lookup returns the first row whose description and size equal the request exactly, and returns nothing exactly when no row matches |
| StockLedger.RegisterKeepsFirstMatch | streamlit_app.py:52-53 | registering a duplicate never changes which row a later withdrawal acts on; the new row is found only when no earlier row matched |
| StockLedger.DeleteOnlyMatchHidesItem | streamlit_app.py:110 | after deleting the only row with a given description and size, no row matches them any more |
| StockLedger.Available | streamlit_app.py:178-186 | the preview value is the first matching row's quantity when item and size are both chosen and a row matches, and 0 otherwise; the form displays it only in the first case |
| StockLedger.Withdraw | streamlit_app.py:194-214 | an empty employee, item or size gives MissingFields; no exact match gives ItemNotFound; asking for more than the first match holds gives InsufficientStock; each refusal leaves both tables unchanged; otherwise only the first match loses exactly q units and stays non-negative, and exactly one record (employee, item, size, q, date) is appended to the log |
| StockLedger.PreviewPredictsWithdraw | streamlit_app.py:178-203 | with the employee named, a withdrawal of q units succeeds exactly when q is at most the quantity the preview shows |
| StockLedger.WithdrawIgnoresDuplicates | streamlit_app.py:196-203 | when an earlier row has the same description and size, a later duplicate is never decremented |
| Report.ContainsAnyIff | streamlit_app.py:120 | the alternation of all categories matches a description exactly when at least one category occurs in it |
| Report.MakeSection | streamlit_app.py:68-69 | a category's section lists, once each and in table order, exactly the rows whose upper-cased description contains the category |
| Report.TotalOfSelection | streamlit_app.py:115 | the total of the selected rows equals the sum of the quantities of the rows the filter keeps |
| Report.OtherRows | streamlit_app.py:120 | the uncategorised rows are exactly the rows whose upper-cased description contains none of the categories |
| Report.Categorize | streamlit_app.py:63-120 | the report has one section per category, in list order; each section holds exactly the matching rows, so a row matching several categories is in each of them; each section's total is the sum of its rows' quantities; the uncategorised rows are those matching none |
| Report.StockReport | streamlit_app.py:63-120 | the report over the code's five categories has one section per category, in list order, and its uncategorised rows are exactly those whose upper-cased description contains none of the five |
| Report.StockReportCoversStock | streamlit_app.py:63-120 | for non-negative stock, the five category totals plus the uncategorised quantity are at least the total stock, and equal to it exactly when every row matching two or more of the five holds quantity 0 (in particular when no row matches two) |
| Report.EveryRowPlacedOnce | streamlit_app.py:68-120 | each row is either uncategorised or in at least one section, never both |
| Report.MultiMatchListedTwice | streamlit_app.py:68-69 | a row whose description contains two categories is listed under both of them and not as uncategorised |
| Report.TotalsCoverStock | streamlit_app.py:115-120 | for non-negative stock, the category totals plus the uncategorised quantity are at least the total stock; they are equal exactly when every row matching two or more categories holds quantity 0, and so whenever no row matches two categories |
| Report.EditKeepsPlacement | streamlit_app.py:103-104 | editing a row's quantity and date moves no row between sections or into or out of the uncategorised rows |
| Session.Step | streamlit_app.py:39-214 | each request the form can issue keeps every quantity non-negative and keeps the log's earlier entries in place; only a withdrawal can touch the log |
| Session.RunKeepsStockValid | streamlit_app.py:199-203 | across any sequence of requests, no stock quantity ever becomes negative |
| Session.RunKeepsLogPrefix | streamlit_app.py:206-208 | across any sequence of requests, the withdrawal log only grows and keeps every earlier entry in place |
| Session.RegistrationsAppendRows | streamlit_app.py:51-54 | n registrations add exactly n rows, which hold the submitted fields in submission order; the earlier rows and the log are untouched |
| Scenarios.BootScenario | streamlit_app.py:194-210 | registering 10 boots and withdrawing 3 leaves 7 and one log entry; a following request for 20 is refused and changes nothing |
| Scenarios.DeletedItemNotFound | streamlit_app.py:109-111 | with boots M and G and gloves M registered and the M boots deleted, "Botina" and "M" are still offered separately, but withdrawing Botina/M fails with ItemNotFound and changes nothing |
| Scenarios.EmptyTableMissingFields | streamlit_app.py:174-176 | once the last row is deleted, the selectors have nothing to offer, and the request fails for missing fields and changes nothing |

## Left out

- Streamlit widgets, page layout, popovers, messages and `st.rerun`: these are presentation only. The form's guarantees become preconditions. Quantity widgets start at 1. Edit and delete buttons exist only beside existing rows. The item and size choices are any strings. The code offers only the descriptions and sizes present in the table, chosen independently of each other. On an empty table the selectors return None; the model writes that as the empty string, which gives `MissingFields`, as the code does.
- Loading and saving the CSV files: this is file I/O through pandas. Each operation returns the whole tables that the code writes back.
- pandas row labels: edit, delete and withdraw rerun the script, which reloads the CSV with fresh labels. Register concatenates with `ignore_index=True`, which also renumbers the rows. So labels and positions coincide, and the model uses positions.
- Missing (NaN) cells: every field is a string in the model. The code treats a missing cell differently from an empty string. A NaN description matches no category, so its row is always uncategorised. The model's `up` is unconstrained, so it promises nothing about where an empty description lands. A NaN item or size offered in the withdrawal tab is truthy, matches no row, and is answered "item not found". The model's empty item or size is answered `MissingFields` instead.
- The report's widget errors: the code stops rendering the report in two cases. The first is a row with quantity 0, which a full withdrawal produces. The edit popover's quantity input then gets a default below its minimum of 1, and Streamlit raises an error. The second is a row that matches two categories. It repeats the widget keys `qtd_{i}`, `salvar_{i}` and `excluir_{i}` in its second section, and Streamlit raises on duplicate keys. In the zero-quantity case the error comes before that row's save and delete buttons are created, so the row can be neither edited nor deleted from the report. The rest of that section, its total, the later sections and the uncategorised rows are not shown either. In the duplicate-key case the row's first section renders fully, with its total, so the row can still be edited or deleted there. The error comes at the row's second section, and the rest of that section, its total, the later sections and the uncategorised rows are not shown. The model's report and its edit/delete requests (`Session.Enabled`) cover a superset of what the form can show and issue. So the safety lemmas hold for what the form does, but the report in the model always completes.
- The empty category list: the code's list is fixed and non-empty. `Report.ContainsAny` of an empty list is false. The code's joined pattern would be the empty regex, which matches every row.
- `str.contains` is a regular-expression search. The categories contain no metacharacters, and the uncategorised filter joins them with `|`, so both are modelled as plain substring search.
- Real Unicode upper-casing: `up` is a parameter, not a fixed case mapping.
- Date parsing and formatting, and the CSV round trip of dates and numbers: dates are abstract.
- The type selector's three fixed choices: the type field is free text, which is how the stored table treats it.
- The report's behaviour of hiding empty sections, and its "no items" message for an empty table: these are display decisions. The model still computes such sections, with no rows and a total of 0.
- Multi-session access: the code has none.

=== FILE: ledger.dfy ===
/**
 * The stock ledger of the inventory form: a stock table of items and an
 * append-only log of withdrawals, both addressed by row position, and the
 * operations that register, edit, delete and withdraw stock.
 *
 * Every operation is a pure function from the tables before the interaction
 * to the tables that are written back in full afterwards.
 */
module StockLedger {

  /** Calendar dates are never inspected by the ledger, only stored and copied. */
  type Date(==)

  /** One row of the stock table: type, description, size, quantity, entry date. */
  datatype Item = Item(kind: string, description: string, size: string, quantity: int, date: Date)

  /** One row of the withdrawal log: employee, item description, size, quantity, date. */
  datatype Withdrawal = Withdrawal(employee: string, item: string, size: string, quantity: int, date: Date)

  /** Both persisted tables. */
  datatype Tables = Tables(stock: seq<Item>, log: seq<Withdrawal>)

  datatype Option<T> = None | Some(value: T)

  /** The outcome reported to the user by a withdrawal request. */
  datatype Status = Withdrawn | MissingFields | ItemNotFound | InsufficientStock

  datatype Outcome = Outcome(tables: Tables, status: Status)

  /** The ledger invariant: no stock quantity is negative. */
  predicate ValidStock(stock: seq<Item>)
  {
    forall i :: 0 <= i < |stock| ==> stock[i].quantity >= 0
  }

  // ---------------------------------------------------------------------------
  // Register, edit, delete
  // ---------------------------------------------------------------------------

  /**
   * Registering appends a new row, with no merge against an existing row of
   * the same description and size. The quantity widget admits only values >= 1.
   */
  function Register(stock: seq<Item>, kind: string, description: string, size: string,
                    quantity: int, date: Date): (r: seq<Item>)
    requires quantity >= 1
    ensures |r| == |stock| + 1
    ensures r[..|stock|] == stock
    ensures r[|stock|].kind == kind && r[|stock|].description == description && r[|stock|].size == size
    ensures r[|stock|].quantity == quantity && r[|stock|].date == date
    ensures ValidStock(stock) ==> ValidStock(r)
  {
    stock + [Item(kind, description, size, quantity, date)]
  }

  /**
   * Editing row `i` overwrites its quantity and date and nothing else; the
   * edit widget admits only quantities >= 1.
   */
  function Edit(stock: seq<Item>, i: nat, quantity: int, date: Date): (r: seq<Item>)
    requires i < |stock|
    requires quantity >= 1
    ensures |r| == |stock|
    ensures r[i].kind == stock[i].kind && r[i].description == stock[i].description && r[i].size == stock[i].size
    ensures r[i].quantity == quantity && r[i].date == date
    ensures forall j :: 0 <= j < |stock| && j != i ==> r[j] == stock[j]
    ensures ValidStock(stock) ==> ValidStock(r)
  {
    stock[i := stock[i].(quantity := quantity, date := date)]
  }

  /** Deleting row `i` removes exactly that row and keeps the others in order. */
  function Delete(stock: seq<Item>, i: nat): (r: seq<Item>)
    requires i < |stock|
    ensures |r| == |stock| - 1
    ensures forall j :: 0 <= j < i ==> r[j] == stock[j]
    ensures forall j :: i <= j < |r| ==> r[j] == stock[j + 1]
    ensures multiset(r) + multiset{stock[i]} == multiset(stock)
    ensures ValidStock(stock) ==> ValidStock(r)
  {
    assert stock == stock[..i] + [stock[i]] + stock[i + 1..];
    stock[..i] + stock[i + 1..]
  }

  // ---------------------------------------------------------------------------
  // Lookup of the row a withdrawal acts on
  // ---------------------------------------------------------------------------

  /** Exact, case-sensitive match of a row against a description and a size. */
  predicate Matches(it: Item, item: string, size: string)
  {
    it.description == item && it.size == size
  }

  /** Row `j` is the first row of the table that matches. */
  predicate FirstMatch(stock: seq<Item>, item: string, size: string, j: int)
  {
    && 0 <= j < |stock|
    && Matches(stock[j], item, size)
    && forall k :: 0 <= k < j ==> !Matches(stock[k], item, size)
  }

  /** No row of the table matches. */
  predicate NoMatch(stock: seq<Item>, item: string, size: string)
  {
    forall k :: 0 <= k < |stock| ==> !Matches(stock[k], item, size)
  }

  /** Scans the rows from position `from` on and returns the first matching one. */
  function FindFrom(stock: seq<Item>, item: string, size: string, from: nat): (r: Option<nat>)
    requires from <= |stock|
    ensures r.Some? ==> from <= r.value < |stock| && Matches(stock[r.value], item, size)
    ensures r.Some? ==> forall k :: from <= k < r.value ==> !Matches(stock[k], item, size)
    ensures r.None? ==> forall k :: from <= k < |stock| ==> !Matches(stock[k], item, size)
    decreases |stock| - from
  {
    if from == |stock| then None
    else if Matches(stock[from], item, size) then Some(from)
    else FindFrom(stock, item, size, from + 1)
  }

  /** The first row whose description and size equal the requested ones, if any. */
  function FindFirst(stock: seq<Item>, item: string, size: string): (r: Option<nat>)
    ensures r.Some? ==> FirstMatch(stock, item, size, r.value)
    ensures r.None? <==> NoMatch(stock, item, size)
  {
    FindFrom(stock, item, size, 0)
  }

  /**
   * Registering never redirects a withdrawal: the first match for any
   * description and size stays where it was, and the new row becomes the
   * first match only when no earlier row matched.
   */
  lemma RegisterKeepsFirstMatch(stock: seq<Item>, kind: string, description: string, size: string,
                                quantity: int, date: Date, item: string, size': string)
    requires quantity >= 1
    ensures var r := FindFirst(Register(stock, kind, description, size, quantity, date), item, size');
            && (FindFirst(stock, item, size').Some? ==> r == FindFirst(stock, item, size'))
            && (FindFirst(stock, item, size').None? ==>
                  if description == item && size == size' then r == Some(|stock|) else r.None?)
  {
  }

  /** Deleting the only row with a given description and size makes it unavailable. */
  lemma DeleteOnlyMatchHidesItem(stock: seq<Item>, i: nat, item: string, size: string)
    requires i < |stock| && Matches(stock[i], item, size)
    requires forall j :: 0 <= j < |stock| && j != i ==> !Matches(stock[j], item, size)
    ensures NoMatch(Delete(stock, i), item, size)
  {
  }

  // ---------------------------------------------------------------------------
  // Available-quantity preview and withdrawal
  // ---------------------------------------------------------------------------

  /**
   * The preview value computed before a withdrawal: the first matching row's
   * quantity when both the item and the size are chosen and some row
   * matches, else 0. The form displays it only when a row matches.
   */
  function Available(stock: seq<Item>, item: string, size: string): (n: int)
    ensures item == [] || size == [] ==> n == 0
    ensures item != [] && size != [] && NoMatch(stock, item, size) ==> n == 0
    ensures forall j :: item != [] && size != [] && FirstMatch(stock, item, size, j) ==> n == stock[j].quantity
  {
    if item != [] && size != [] then
      match FindFirst(stock, item, size)
      case Some(j) => stock[j].quantity
      case None => 0
    else 0
  }

  /** The employee, the item and the size must all be given. */
  predicate Filled(employee: string, item: string, size: string)
  {
    employee != [] && item != [] && size != []
  }

  /**
   * Withdrawal: with all fields filled, find the first row matching the
   * description and size; refuse when none matches or when more is asked
   * than it holds; otherwise decrement that row and append one log record.
   * Every refusal leaves both tables as they were.
   */
  function Withdraw(t: Tables, employee: string, item: string, size: string,
                    quantity: int, date: Date): (r: Outcome)
    requires quantity >= 1
    ensures r.status == MissingFields <==> !Filled(employee, item, size)
    ensures r.status == ItemNotFound <==> Filled(employee, item, size) && NoMatch(t.stock, item, size)
    ensures r.status == InsufficientStock <==>
              && Filled(employee, item, size)
              && exists j :: FirstMatch(t.stock, item, size, j) && quantity > t.stock[j].quantity
    ensures r.status == Withdrawn <==>
              && Filled(employee, item, size)
              && exists j :: FirstMatch(t.stock, item, size, j) && quantity <= t.stock[j].quantity
    ensures r.status != Withdrawn ==> r.tables == t
    ensures r.status == Withdrawn ==>
              exists j :: && FirstMatch(t.stock, item, size, j)
                          && quantity <= t.stock[j].quantity
                          && |r.tables.stock| == |t.stock|
                          && r.tables.stock[j] == t.stock[j].(quantity := t.stock[j].quantity - quantity)
                          && r.tables.stock[j].quantity >= 0
                          && (forall k :: 0 <= k < |t.stock| && k != j ==> r.tables.stock[k] == t.stock[k])
                          && r.tables.log == t.log + [Withdrawal(employee, item, size, quantity, date)]
    ensures ValidStock(t.stock) ==> ValidStock(r.tables.stock)
  {
    if !Filled(employee, item, size) then Outcome(t, MissingFields)
    else
      match FindFirst(t.stock, item, size)
      case None => Outcome(t, ItemNotFound)
      case Some(j) =>
        var current := t.stock[j].quantity;
        if quantity > current then Outcome(t, InsufficientStock)
        else
          var stock' := t.stock[j := t.stock[j].(quantity := current - quantity)];
          var log' := t.log + [Withdrawal(employee, item, size, quantity, date)];
          Outcome(Tables(stock', log'), Withdrawn)
  }

  /**
   * The preview predicts the withdrawal: once the employee is named, a
   * request for `quantity` units succeeds exactly when it does not exceed the
   * quantity the preview shows.
   */
  lemma PreviewPredictsWithdraw(t: Tables, employee: string, item: string, size: string,
                                quantity: int, date: Date)
    requires quantity >= 1
    requires employee != []
    ensures (Withdraw(t, employee, item, size, quantity, date).status == Withdrawn)
              <==> (quantity <= Available(t.stock, item, size))
  {
  }

  /**
   * Only the first of several rows with the same description and size is
   * ever decremented: any later duplicate is left untouched.
   */
  lemma WithdrawIgnoresDuplicates(t: Tables, employee: string, item: string, size: string,
                                  quantity: int, date: Date, later: nat)
    requires quantity >= 1
    requires later < |t.stock| && Matches(t.stock[later], item, size)
    requires exists k :: 0 <= k < later && Matches(t.stock[k], item, size)
    ensures Withdraw(t, employee, item, size, quantity, date).tables.stock[later] == t.stock[later]
  {
  }
}

=== FILE: report.dfy ===
/**
 * The stock report: rows grouped into sections by case-insensitive substring
 * match of their description against a fixed category list, each section
 * with the sum of its quantities, followed by the rows no category matched.
 *
 * Upper-casing is a parameter `up`, since the categories contain non-ASCII
 * letters and the model does not fix a Unicode case mapping.
 */
module Report {
  import opened Text
  import opened StockLedger

  /** The categories the report lists, in the order it lists them. */
  const StockCategories: seq<string> := ["CALÇA", "CAMISA", "BOTINA", "CAPACETE", "LUVA"]

  /** A report section: one category, the positions of its rows, and their total quantity. */
  datatype Section = Section(category: string, rows: seq<nat>, total: int)

  /** The whole report: one section per category, then the uncategorised rows. */
  datatype Summary = Summary(sections: seq<Section>, others: seq<nat>)

  /** Which rows a filter keeps: those of one category, or those of none of a list. */
  datatype Filter = InCategory(name: string) | Uncategorised(categories: seq<string>)

  /** The upper-cased description contains at least one of `cats` (a regex alternation of them). */
  function ContainsAny(s: string, cats: seq<string>): bool
  {
    |cats| > 0 && (Contains(s, cats[0]) || ContainsAny(s, cats[1..]))
  }

  /** The number of categories of `cats` that `s` contains. */
  function MatchCount(s: string, cats: seq<string>): nat
  {
    if |cats| == 0 then 0
    else (if Contains(s, cats[0]) then 1 else 0) + MatchCount(s, cats[1..])
  }

  predicate Keeps(f: Filter, up: string -> string, it: Item)
  {
    match f
    case InCategory(c) => Contains(up(it.description), c)
    case Uncategorised(cats) => !ContainsAny(up(it.description), cats)
  }

  /** Strictly increasing, so a section lists each row once and in table order. */
  predicate Increasing(rows: seq<nat>)
  {
    forall k, l :: 0 <= k < l < |rows| ==> rows[k] < rows[l]
  }

  /** The positions below `n` of the rows the filter keeps, in table order. */
  function Select(stock: seq<Item>, up: string -> string, f: Filter, n: nat): (r: seq<nat>)
    requires n <= |stock|
    ensures forall k :: 0 <= k < |r| ==> r[k] < n && Keeps(f, up, stock[r[k]])
    ensures forall i :: 0 <= i < n && Keeps(f, up, stock[i]) ==> i in r
    ensures Increasing(r)
  {
    if n == 0 then []
    else Select(stock, up, f, n - 1) + (if Keeps(f, up, stock[n - 1]) then [n - 1] else [])
  }

  /** The sum of the quantities of the rows at the given positions. */
  function Total(stock: seq<Item>, rows: seq<nat>): int
    requires forall k :: 0 <= k < |rows| ==> rows[k] < |stock|
  {
    if |rows| == 0 then 0
    else Total(stock, rows[..|rows| - 1]) + stock[rows[|rows| - 1]].quantity
  }

  /** Reference sum: the quantities of the rows the filter keeps, read straight off the table. */
  function QuantityWhere(stock: seq<Item>, up: string -> string, f: Filter): int
  {
    if |stock| == 0 then 0
    else
      var last := stock[|stock| - 1];
      QuantityWhere(stock[..|stock| - 1], up, f) + (if Keeps(f, up, last) then last.quantity else 0)
  }

  /** Reference sum of the whole table. */
  function StockSum(stock: seq<Item>): int
  {
    if |stock| == 0 then 0 else StockSum(stock[..|stock| - 1]) + stock[|stock| - 1].quantity
  }

  /** Reference sum of every category's quantity, a multiply-matched row counted once per category. */
  function CategoriesSum(stock: seq<Item>, up: string -> string, cats: seq<string>): int
  {
    if |cats| == 0 then 0
    else QuantityWhere(stock, up, InCategory(cats[0])) + CategoriesSum(stock, up, cats[1..])
  }

  function SectionsTotal(sections: seq<Section>): int
  {
    if |sections| == 0 then 0 else sections[0].total + SectionsTotal(sections[1..])
  }

  // ---------------------------------------------------------------------------
  // The matching rules
  // ---------------------------------------------------------------------------

  /** `s` contains one of the categories exactly when some category occurs in it. */
  lemma {:induction false} ContainsAnyIff(s: string, cats: seq<string>)
    ensures ContainsAny(s, cats) <==> exists k :: 0 <= k < |cats| && Occurs(s, cats[k])
  {
    if |cats| > 0 {
      ContainsIffOccurs(s, cats[0]);
      ContainsAnyIff(s, cats[1..]);
      if exists k :: 0 <= k < |cats| && Occurs(s, cats[k]) {
        var k :| 0 <= k < |cats| && Occurs(s, cats[k]);
        if k > 0 {
          assert cats[1..][k - 1] == cats[k];
        }
      }
      if exists k :: 0 <= k < |cats[1..]| && Occurs(s, cats[1..][k]) {
        var k :| 0 <= k < |cats[1..]| && Occurs(s, cats[1..][k]);
        assert cats[k + 1] == cats[1..][k];
      }
    }
  }

  /** A description contains no category exactly when it matches none of them. */
  lemma {:induction false} MatchCountZeroIff(s: string, cats: seq<string>)
    ensures MatchCount(s, cats) == 0 <==> !ContainsAny(s, cats)
  {
    if |cats| > 0 {
      MatchCountZeroIff(s, cats[1..]);
    }
  }

  /** The section of category `c`: the rows whose upper-cased description contains `c`. */
  function MakeSection(stock: seq<Item>, up: string -> string, c: string): (r: Section)
    ensures r.category == c
    ensures forall i :: i in r.rows <==> 0 <= i < |stock| && Occurs(up(stock[i].description), c)
    ensures Increasing(r.rows)
    ensures r.total == QuantityWhere(stock, up, InCategory(c))
  {
    var rows := Select(stock, up, InCategory(c), |stock|);
    forall i | 0 <= i < |stock| ensures Keeps(InCategory(c), up, stock[i]) <==> Occurs(up(stock[i].description), c) {
      ContainsIffOccurs(up(stock[i].description), c);
    }
    TotalOfSelection(stock, up, InCategory(c), |stock|);
    assert stock[..|stock|] == stock;
    Section(c, rows, Total(stock, rows))
  }

  function Sections(stock: seq<Item>, up: string -> string, cats: seq<string>): (r: seq<Section>)
    ensures |r| == |cats|
    ensures forall k :: 0 <= k < |cats| ==> r[k] == MakeSection(stock, up, cats[k])
  {
    if |cats| == 0 then [] else [MakeSection(stock, up, cats[0])] + Sections(stock, up, cats[1..])
  }

  /** The rows whose upper-cased description contains none of the categories. */
  function OtherRows(stock: seq<Item>, up: string -> string, cats: seq<string>): (r: seq<nat>)
    ensures forall i :: i in r <==>
              0 <= i < |stock| && forall k :: 0 <= k < |cats| ==> !Occurs(up(stock[i].description), cats[k])
    ensures Increasing(r)
  {
    forall i | 0 <= i < |stock| ensures Keeps(Uncategorised(cats), up, stock[i]) <==>
                                          forall k :: 0 <= k < |cats| ==> !Occurs(up(stock[i].description), cats[k]) {
      ContainsAnyIff(up(stock[i].description), cats);
    }
    Select(stock, up, Uncategorised(cats), |stock|)
  }

  /**
   * The report over the stock table: a section per category in list order,
   * each with its rows and total, and the rows that fall in no category.
   */
  function Categorize(stock: seq<Item>, up: string -> string, cats: seq<string>): (r: Summary)
    ensures |r.sections| == |cats|
    ensures forall k :: 0 <= k < |cats| ==> r.sections[k].category == cats[k]
    ensures forall k, i :: 0 <= k < |cats| ==>
              (i in r.sections[k].rows <==> 0 <= i < |stock| && Occurs(up(stock[i].description), cats[k]))
    ensures forall k :: 0 <= k < |cats| ==> r.sections[k].total == QuantityWhere(stock, up, InCategory(cats[k]))
    ensures forall i :: i in r.others <==>
              0 <= i < |stock| && forall k :: 0 <= k < |cats| ==> !Occurs(up(stock[i].description), cats[k])
    ensures SectionsTotal(r.sections) == CategoriesSum(stock, up, cats)
  {
    var sections := Sections(stock, up, cats);
    SectionsTotalIsCategoriesSum(stock, up, cats);
    Summary(sections, OtherRows(stock, up, cats))
  }

  /** The report the form renders: `Categorize` over the fixed category list. */
  function StockReport(stock: seq<Item>, up: string -> string): (r: Summary)
    ensures |r.sections| == 5
    ensures forall k :: 0 <= k < 5 ==> r.sections[k].category == StockCategories[k]
    ensures forall i :: i in r.others <==>
              0 <= i < |stock| && forall k :: 0 <= k < 5 ==> !Occurs(up(stock[i].description), StockCategories[k])
  {
    Categorize(stock, up, StockCategories)
  }

  // ---------------------------------------------------------------------------
  // Totals
  // ---------------------------------------------------------------------------

  /** The total of a selection equals the reference sum over the same table prefix. */
  lemma {:induction false} TotalOfSelection(stock: seq<Item>, up: string -> string, f: Filter, n: nat)
    requires n <= |stock|
    ensures Total(stock, Select(stock, up, f, n)) == QuantityWhere(stock[..n], up, f)
  {
    if n > 0 {
      TotalOfSelection(stock, up, f, n - 1);
      SelectionStep(stock, up, f, n);
      PrefixStep(stock, up, f, n);
    }
  }

  /** Widening the selection by one row adds that row's quantity when the filter keeps it. */
  lemma SelectionStep(stock: seq<Item>, up: string -> string, f: Filter, n: nat)
    requires 0 < n <= |stock|
    ensures Total(stock, Select(stock, up, f, n))
         == Total(stock, Select(stock, up, f, n - 1)) + (if Keeps(f, up, stock[n - 1]) then stock[n - 1].quantity else 0)
  {
    var prev := Select(stock, up, f, n - 1);
    if Keeps(f, up, stock[n - 1]) {
      TotalAppend(stock, prev, n - 1);
    } else {
      assert Select(stock, up, f, n) == prev;
    }
  }

  /** Widening the table prefix by one row adds that row's quantity when the filter keeps it. */
  lemma PrefixStep(stock: seq<Item>, up: string -> string, f: Filter, n: nat)
    requires 0 < n <= |stock|
    ensures QuantityWhere(stock[..n], up, f)
         == QuantityWhere(stock[..n - 1], up, f) + (if Keeps(f, up, stock[n - 1]) then stock[n - 1].quantity else 0)
  {
    assert stock[..n][..n - 1] == stock[..n - 1];
  }

  /** Listing one more row adds its quantity to the total. */
  lemma TotalAppend(stock: seq<Item>, rows: seq<nat>, x: nat)
    requires forall k :: 0 <= k < |rows| ==> rows[k] < |stock|
    requires x < |stock|
    ensures Total(stock, rows + [x]) == Total(stock, rows) + stock[x].quantity
  {
  }

  lemma {:induction false} SectionsTotalIsCategoriesSum(stock: seq<Item>, up: string -> string, cats: seq<string>)
    ensures SectionsTotal(Sections(stock, up, cats)) == CategoriesSum(stock, up, cats)
  {
    if |cats| > 0 {
      SectionsTotalIsCategoriesSum(stock, up, cats[1..]);
      assert Sections(stock, up, cats)[1..] == Sections(stock, up, cats[1..]);
    }
  }

  /** Appending one row adds its quantity once for every category it matches. */
  lemma {:induction false} CategoriesSumStep(stock: seq<Item>, up: string -> string, cats: seq<string>)
    requires |stock| > 0
    ensures var last := stock[|stock| - 1];
            CategoriesSum(stock, up, cats)
              == CategoriesSum(stock[..|stock| - 1], up, cats) + last.quantity * MatchCount(up(last.description), cats)
  {
    if |cats| > 0 {
      CategoriesSumStep(stock, up, cats[1..]);
    }
  }

  /** Every row matches at most one category. */
  predicate Exclusive(stock: seq<Item>, up: string -> string, cats: seq<string>)
  {
    forall i :: 0 <= i < |stock| ==> MatchCount(up(stock[i].description), cats) <= 1
  }

  /**
   * The section totals plus the uncategorised quantity never undercount the
   * stock: a row matching several categories is counted in each of them.
   * The equality holds exactly when every such row holds no units. The
   * second ensures is the corollary for tables where no row matches more
   * than one category.
   */
  lemma {:induction false} TotalsCoverStock(stock: seq<Item>, up: string -> string, cats: seq<string>)
    requires ValidStock(stock)
    ensures CategoriesSum(stock, up, cats) + QuantityWhere(stock, up, Uncategorised(cats)) >= StockSum(stock)
    ensures Exclusive(stock, up, cats) ==>
              CategoriesSum(stock, up, cats) + QuantityWhere(stock, up, Uncategorised(cats)) == StockSum(stock)
    ensures (CategoriesSum(stock, up, cats) + QuantityWhere(stock, up, Uncategorised(cats)) == StockSum(stock))
              <==> OvercountFree(stock, up, cats)
  {
    if |stock| > 0 {
      var init := stock[..|stock| - 1];
      var last := stock[|stock| - 1];
      assert ValidStock(init) by {
        forall i | 0 <= i < |init| ensures init[i].quantity >= 0 {
          assert init[i] == stock[i];
        }
      }
      assert Exclusive(stock, up, cats) ==> Exclusive(init, up, cats) by {
        if Exclusive(stock, up, cats) {
          forall i | 0 <= i < |init| ensures MatchCount(up(init[i].description), cats) <= 1 {
            assert init[i] == stock[i];
          }
        }
      }
      TotalsCoverStock(init, up, cats);
      CategoriesSumStep(stock, up, cats);
      var m := MatchCount(up(last.description), cats);
      MatchCountZeroIff(up(last.description), cats);
      RowCountedAtLeastOnce(last.quantity, m);
      var extra := last.quantity * m + (if m == 0 then last.quantity else 0);
      assert CategoriesSum(stock, up, cats) + QuantityWhere(stock, up, Uncategorised(cats))
          == CategoriesSum(init, up, cats) + QuantityWhere(init, up, Uncategorised(cats)) + extra;
      assert StockSum(stock) == StockSum(init) + last.quantity;
      OvercountFreeStep(stock, up, cats);
    } else {
      CategoriesSumOfEmpty(stock, up, cats);
    }
  }

  /** A row is overcounted when it matches two or more categories and holds units. */
  predicate OvercountFree(stock: seq<Item>, up: string -> string, cats: seq<string>)
  {
    forall i :: 0 <= i < |stock| && MatchCount(up(stock[i].description), cats) >= 2 ==> stock[i].quantity == 0
  }

  /** A table is free of overcounted rows exactly when its prefix and its last row are. */
  lemma OvercountFreeStep(stock: seq<Item>, up: string -> string, cats: seq<string>)
    requires |stock| > 0
    ensures var last := stock[|stock| - 1];
            OvercountFree(stock, up, cats) <==>
              && OvercountFree(stock[..|stock| - 1], up, cats)
              && (MatchCount(up(last.description), cats) >= 2 ==> last.quantity == 0)
  {
  }

  /** Helper for `TotalsCoverStock`: an empty table sums to 0 in every category. */
  lemma {:induction false} CategoriesSumOfEmpty(stock: seq<Item>, up: string -> string, cats: seq<string>)
    requires |stock| == 0
    ensures CategoriesSum(stock, up, cats) == 0
  {
    if |cats| > 0 {
      CategoriesSumOfEmpty(stock, up, cats[1..]);
    }
  }

  /**
   * A row of quantity `q` matching `m` categories adds at least `q`, and
   * exactly `q` when it matches at most one category or holds no units.
   */
  lemma RowCountedAtLeastOnce(q: int, m: nat)
    requires q >= 0
    ensures q * m + (if m == 0 then q else 0) >= q
    ensures (q * m + (if m == 0 then q else 0) == q) <==> (m <= 1 || q == 0)
  {
  }

  /**
   * Each row is placed either among the uncategorised rows or in at least
   * one section, never both.
   */
  lemma EveryRowPlacedOnce(stock: seq<Item>, up: string -> string, cats: seq<string>, i: nat)
    requires i < |stock|
    ensures var r := Categorize(stock, up, cats);
            (i in r.others) <==> !(exists k :: 0 <= k < |cats| && i in r.sections[k].rows)
  {
  }

  /** A row whose description contains two categories is listed in both sections. */
  lemma MultiMatchListedTwice(stock: seq<Item>, up: string -> string, cats: seq<string>, i: nat, k1: nat, k2: nat)
    requires i < |stock| && k1 < |cats| && k2 < |cats|
    requires Contains(up(stock[i].description), cats[k1]) && Contains(up(stock[i].description), cats[k2])
    ensures var r := Categorize(stock, up, cats);
            i in r.sections[k1].rows && i in r.sections[k2].rows && i !in r.others
  {
  }

  /** Two tables that list the same descriptions in the same order. */
  predicate SameDescriptions(a: seq<Item>, b: seq<Item>)
  {
    |a| == |b| && forall j :: 0 <= j < |a| ==> a[j].description == b[j].description
  }

  /** Which rows a filter keeps depends on the descriptions alone. */
  lemma {:induction false} SelectByDescription(a: seq<Item>, b: seq<Item>, up: string -> string, f: Filter, n: nat)
    requires SameDescriptions(a, b) && n <= |a|
    ensures Select(a, up, f, n) == Select(b, up, f, n)
  {
    if n > 0 {
      SelectByDescription(a, b, up, f, n - 1);
      assert Keeps(f, up, a[n - 1]) == Keeps(f, up, b[n - 1]);
    }
  }

  /**
   * Editing a row's quantity and date never moves any row between sections
   * or into or out of the uncategorised rows.
   */
  lemma EditKeepsPlacement(stock: seq<Item>, up: string -> string, cats: seq<string>,
                           i: nat, quantity: int, date: Date)
    requires i < |stock| && quantity >= 1
    ensures forall k :: 0 <= k < |cats| ==>
              Categorize(Edit(stock, i, quantity, date), up, cats).sections[k].rows
                == Categorize(stock, up, cats).sections[k].rows
    ensures Categorize(Edit(stock, i, quantity, date), up, cats).others == Categorize(stock, up, cats).others
  {
    var stock' := Edit(stock, i, quantity, date);
    assert SameDescriptions(stock', stock);
    forall k | 0 <= k < |cats|
      ensures Categorize(stock', up, cats).sections[k].rows == Categorize(stock, up, cats).sections[k].rows
    {
      SelectByDescription(stock', stock, up, InCategory(cats[k]), |stock|);
    }
    SelectByDescription(stock', stock, up, Uncategorised(cats), |stock|);
  }

  /**
   * Over the fixed category list, the section totals plus the uncategorised
   * quantity never undercount the stock, and match it exactly when every
   * row matching two of the categories holds no units.
   */
  lemma StockReportCoversStock(stock: seq<Item>, up: string -> string)
    requires ValidStock(stock)
    ensures var r := StockReport(stock, up);
            SectionsTotal(r.sections) + QuantityWhere(stock, up, Uncategorised(StockCategories)) >= StockSum(stock)
    ensures var r := StockReport(stock, up);
            Exclusive(stock, up, StockCategories) ==>
              SectionsTotal(r.sections) + QuantityWhere(stock, up, Uncategorised(StockCategories)) == StockSum(stock)
    ensures var r := StockReport(stock, up);
            (SectionsTotal(r.sections) + QuantityWhere(stock, up, Uncategorised(StockCategories)) == StockSum(stock))
              <==> OvercountFree(stock, up, StockCategories)
  {
    TotalsCoverStock(stock, up, StockCategories);
  }
}

=== FILE: scenarios.dfy ===
/**
 * Worked scenarios of the withdrawal tab against small tables built by
 * registering and deleting rows.
 */
module Scenarios {
  import opened StockLedger

  /**
   * Register 10 boots of size M, withdraw 3 of them, then ask for 20: the
   * first withdrawal leaves 7 and one log entry; the second is refused and
   * changes nothing.
   */
  lemma BootScenario(d1: Date, d2: Date, d3: Date)
    ensures var t0 := Tables(Register([], "EPI", "Botina", "M", 10, d1), []);
            var w1 := Withdraw(t0, "Alice", "Botina", "M", 3, d2);
            var w2 := Withdraw(w1.tables, "Bob", "Botina", "M", 20, d3);
            && w1.status == Withdrawn
            && w1.tables.stock == [Item("EPI", "Botina", "M", 7, d1)]
            && w1.tables.log == [Withdrawal("Alice", "Botina", "M", 3, d2)]
            && w2.status == InsufficientStock
            && w2.tables == w1.tables
  {
  }

  /**
   * Boots of sizes M and G and gloves of size M are registered, then the
   * M boots are deleted. "Botina" and "M" are both still offered by the
   * item and size selectors, and withdrawing that combination finds no item
   * and changes nothing.
   */
  lemma DeletedItemNotFound(d1: Date, d2: Date)
    ensures var stock := Register(Register(Register([], "EPI", "Botina", "M", 10, d1),
                                           "EPI", "Botina", "G", 5, d1), "EPI", "Luva", "M", 8, d1);
            var t := Tables(Delete(stock, 0), []);
            var w := Withdraw(t, "Carl", "Botina", "M", 1, d2);
            && t.stock == [Item("EPI", "Botina", "G", 5, d1), Item("EPI", "Luva", "M", 8, d1)]
            && w.status == ItemNotFound
            && w.tables == t
  {
  }

  /**
   * Once the last row is deleted the selectors offer no choice. An unchosen
   * item and size, written here as empty strings, make the request fail for
   * missing fields and change nothing.
   */
  lemma EmptyTableMissingFields(d1: Date, d2: Date)
    ensures var t := Tables(Delete(Register([], "EPI", "Botina", "M", 10, d1), 0), []);
            var w := Withdraw(t, "Carl", "", "", 1, d2);
            && t.stock == []
            && w.status == MissingFields
            && w.tables == t
  {
  }
}

=== FILE: session.dfy ===
/**
 * A session of the inventory form: the requests the three tabs can issue,
 * applied one per interaction to the tables reloaded from storage, and the
 * invariants that hold across any sequence of them.
 */
module Session {
  import opened StockLedger

  /** One request from the register, report (edit/delete) or withdrawal tab. */
  datatype Command =
    | RegisterItem(kind: string, description: string, size: string, quantity: int, date: Date)
    | EditItem(row: nat, quantity: int, date: Date)
    | DeleteItem(row: nat)
    | WithdrawItem(employee: string, item: string, size: string, quantity: int, date: Date)

  /**
   * A superset of the requests the form can issue against the current
   * tables: quantity widgets start at 1, and edit/delete buttons exist only
   * beside existing rows. The form issues fewer than this, because its
   * report stops at a row it cannot render.
   */
  predicate Enabled(t: Tables, c: Command)
  {
    match c
    case RegisterItem(_, _, _, q, _) => q >= 1
    case EditItem(i, q, _) => i < |t.stock| && q >= 1
    case DeleteItem(i) => i < |t.stock|
    case WithdrawItem(_, _, _, q, _) => q >= 1
  }

  /** The tables written back after one request. */
  function Step(t: Tables, c: Command): (r: Tables)
    requires Enabled(t, c)
    ensures ValidStock(t.stock) ==> ValidStock(r.stock)
    ensures |r.log| >= |t.log| && r.log[..|t.log|] == t.log
    ensures !c.WithdrawItem? ==> r.log == t.log
  {
    match c
    case RegisterItem(k, d, s, q, dt) => Tables(Register(t.stock, k, d, s, q, dt), t.log)
    case EditItem(i, q, dt) => Tables(Edit(t.stock, i, q, dt), t.log)
    case DeleteItem(i) => Tables(Delete(t.stock, i), t.log)
    case WithdrawItem(e, it, s, q, dt) => Withdraw(t, e, it, s, q, dt).tables
  }

  /** Applies the requests in order; `None` when one of them cannot be issued. */
  function Run(t: Tables, cmds: seq<Command>): Option<Tables>
    decreases |cmds|
  {
    if |cmds| == 0 then Some(t)
    else if !Enabled(t, cmds[0]) then None
    else Run(Step(t, cmds[0]), cmds[1..])
  }

  /** No sequence of requests drives any quantity negative. */
  lemma {:induction false} RunKeepsStockValid(t: Tables, cmds: seq<Command>)
    requires ValidStock(t.stock)
    requires Run(t, cmds).Some?
    ensures ValidStock(Run(t, cmds).value.stock)
    decreases |cmds|
  {
    if |cmds| > 0 {
      RunKeepsStockValid(Step(t, cmds[0]), cmds[1..]);
    }
  }

  /** The withdrawal log only ever grows: every earlier entry survives in place. */
  lemma {:induction false} RunKeepsLogPrefix(t: Tables, cmds: seq<Command>)
    requires Run(t, cmds).Some?
    ensures |Run(t, cmds).value.log| >= |t.log|
    ensures Run(t, cmds).value.log[..|t.log|] == t.log
    decreases |cmds|
  {
    if |cmds| > 0 {
      var t' := Step(t, cmds[0]);
      RunKeepsLogPrefix(t', cmds[1..]);
      var final := Run(t, cmds).value.log;
      assert final[..|t.log|] == final[..|t'.log|][..|t.log|];
    }
  }

  predicate AllRegistrations(cmds: seq<Command>)
  {
    forall k :: 0 <= k < |cmds| ==> cmds[k].RegisterItem? && cmds[k].quantity >= 1
  }

  /** The row a registration request creates. */
  function NewRow(c: Command): Item
    requires c.RegisterItem?
  {
    Item(c.kind, c.description, c.size, c.quantity, c.date)
  }

  /**
   * A run of registrations adds one row per request, holding exactly the
   * submitted fields in submission order, and leaves the earlier rows and
   * the log alone.
   */
  lemma {:induction false} RegistrationsAppendRows(t: Tables, cmds: seq<Command>)
    requires AllRegistrations(cmds)
    ensures Run(t, cmds).Some?
    ensures var t' := Run(t, cmds).value;
            && |t'.stock| == |t.stock| + |cmds|
            && t'.stock[..|t.stock|] == t.stock
            && (forall k :: 0 <= k < |cmds| ==> t'.stock[|t.stock| + k] == NewRow(cmds[k]))
            && t'.log == t.log
    decreases |cmds|
  {
    if |cmds| > 0 {
      var t1 := Step(t, cmds[0]);
      assert AllRegistrations(cmds[1..]) by {
        forall k | 0 <= k < |cmds[1..]| ensures cmds[1..][k].RegisterItem? && cmds[1..][k].quantity >= 1 {
          assert cmds[1..][k] == cmds[k + 1];
        }
      }
      RegistrationsAppendRows(t1, cmds[1..]);
      var t' := Run(t, cmds).value;
      assert t1.stock == t.stock + [NewRow(cmds[0])];
      assert t'.stock[..|t.stock|] == t'.stock[..|t1.stock|][..|t.stock|];
      forall k | 0 <= k < |cmds| ensures t'.stock[|t.stock| + k] == NewRow(cmds[k]) {
        if k > 0 {
          assert cmds[1..][k - 1] == cmds[k];
          assert t'.stock[|t1.stock| + (k - 1)] == NewRow(cmds[1..][k - 1]);
        } else {
          assert t'.stock[..|t1.stock|] == t1.stock;
        }
      }
    }
  }
}

=== FILE: text.dfy ===
/**
 * Substring containment on strings, the test that the category filter of
 * the stock report applies to upper-cased item descriptions.
 */
module Text {

  /** `sub` occurs in `s` starting at position `i`. */
  predicate OccursAt(s: string, sub: string, i: nat)
  {
    i + |sub| <= |s| && s[i..i + |sub|] == sub
  }

  /** Reference meaning of containment: some position of `s` starts a copy of `sub`. */
  ghost predicate Occurs(s: string, sub: string)
  {
    exists i: nat :: OccursAt(s, sub, i)
  }

  /** Containment as a left-to-right scan: try `sub` as a prefix, then drop one character. */
  function Contains(s: string, sub: string): bool
    decreases |s|
  {
    if |sub| > |s| then false
    else if s[..|sub|] == sub then true
    else Contains(s[1..], sub)
  }

  /** The scan answers yes exactly when `sub` occurs somewhere in `s`. */
  lemma {:induction false} ContainsIffOccurs(s: string, sub: string)
    ensures Contains(s, sub) <==> Occurs(s, sub)
    decreases |s|
  {
    if |sub| > |s| {
      forall i: nat ensures !OccursAt(s, sub, i) { }
    } else if s[..|sub|] == sub {
      assert OccursAt(s, sub, 0);
    } else {
      var t := s[1..];
      ContainsIffOccurs(t, sub);
      if Occurs(s, sub) {
        var i: nat :| OccursAt(s, sub, i);
        assert i != 0;
        assert t[i - 1..i - 1 + |sub|] == s[i..i + |sub|];
        assert OccursAt(t, sub, i - 1);
      }
      if Occurs(t, sub) {
        var j: nat :| OccursAt(t, sub, j);
        assert s[j + 1..j + 1 + |sub|] == t[j..j + |sub|];
        assert OccursAt(s, sub, j + 1);
      }
    }
  }
}
